=== FILE: README.md ===
# Weather tool and session set-up of a LiveKit voice agent, in Dafny

The agent is a voice assistant built on the LiveKit agents framework. The
framework runs the conversation: turn taking, barge-in, endpointing and usage
metrics. The agent itself decides only a few things, and this project models
them as pure functions with proved properties.

- **Location sanitisation** (`Sanitize` module). The location argument of the
  `get_weather` tool goes through `re.sub(r"[^a-zA-Z0-9]+", " ", location)`
  and then `str.strip()`. `Substitute` models the substitution. `Strip` models
  Python's strip over the characters `str.isspace()` accepts: a scan from the
  front, then a scan back from the end, keeping what lies between. `Sanitize` is
  the two together. `Words` and `Join` describe the result independently: the
  input's maximal runs of ASCII letters and digits, separated by single
  spaces. `Sanitize` is proved equal to that description, and it is the only
  clean string with the input's words.
- **The `get_weather` call** (`WeatherTool` module). A call is a function of:
  - the raw location;
  - the chat context, a sequence of messages with roles;
  - the index of the filler template that `random.choice` picked;
  - the weather service's answer, as a status and a body.

  It returns the effects in order and an outcome. The effects are an optional
  `Say` of the filler line and then a `Fetch` of the URL. The outcome is
  either the report sentence or an opaque `Failure`. `FormatLocation` models
  `str.format(location=…)` on the filler templates.
- **Speech-recognition model choice** (`Session` module). A participant who
  joined over SIP gets `nova-2-phonecall`; anyone else gets `nova-2-general`.

Three details of the code are easy to miss, and the model keeps them:
- Each run of characters outside the letter/digit set becomes one space, so
  "New-York" becomes "New York", not "NewYork".
- A filler is also spoken when the chat context is empty, not only when the
  last message is someone else's.
- A status other than 200 raises instead of returning a text, so the outcome
  is an opaque `Failure`.

## Model

| member | source | states |
|---|---|---|
| Sanitize.Substitute | agent.py:40 | The substitution leaves only ASCII letters, digits and spaces, never two spaces in a row. It is empty exactly when the input is, and it starts or ends with a space exactly when the input starts or ends outside `[a-zA-Z0-9]` |
| Sanitize.SubstituteShape | agent.py:40 | The substitution is the input's words joined by single spaces, plus one space at either end where the input starts or ends with a run of other characters; an input with no letters or digits becomes one space |
| Sanitize.SkipWhitespace | agent.py:40 | The front scan of `str.strip()` stops at the first character that is not whitespace: everything it passes over is whitespace, and it stops at the end only when the rest is all whitespace |
| Sanitize.SkipWhitespaceBack | agent.py:40 | The back scan of `str.strip()` stops just after the last character that is not whitespace, and never goes below the point where the front scan stopped |
| Sanitize.Strip | agent.py:40 | The result of `str.strip()` neither starts nor ends with whitespace |
| Sanitize.StripSplits | agent.py:40 | The input of `str.strip()` is its result with whitespace before and after it, so only whitespace is cut off |
| Sanitize.StripPadded | agent.py:40 | A piece that neither starts nor ends with whitespace, padded with whitespace on both sides, strips back to exactly that piece |
| Sanitize.Sanitize | agent.py:40 | The sanitised location holds only ASCII letters, digits and spaces. It has no leading or trailing space and no two consecutive spaces |
| Sanitize.SanitizeKeepsAlnum | agent.py:40 | Every ASCII letter and digit of the input survives in its original order, and no other letter or digit appears |
| Sanitize.JoinClean | agent.py:40 | Words joined by single spaces make a clean string that starts and ends with a letter or digit, and is empty only when there are no words |
| Sanitize.WordsOfJoin | agent.py:40 | Splitting words joined by single spaces into maximal letter/digit runs gives the same words back |
| Sanitize.SanitizeIsJoinedWords | agent.py:40 | The sanitised location is exactly the input's maximal letter/digit runs joined by single spaces |
| Sanitize.SanitizeKeepsWords | agent.py:40 | The sanitised location has the same words as the input, so letters that were separated stay separated and adjacent ones stay adjacent |
| Sanitize.SanitizeFixesClean | agent.py:40 | A string is left unchanged by sanitising if and only if it is clean: only letters, digits and single inner spaces |
| Sanitize.SanitizeIdempotent | agent.py:40 | Sanitising twice gives the same result as sanitising once |
| Sanitize.SanitizeUnique | agent.py:40 | Any clean string with the same words as the input equals the sanitised location |
| WeatherTool.FormatLocation | agent.py:59 | A template with no `{` is copied unchanged; the result for a template with a single `{location}` field is stated by `WeatherTool.FormatOneField` |
| WeatherTool.FormatOneField | agent.py:59 | Formatting a template whose only brace is one `{location}` field yields the text before the field, then the value, then the text after |
| WeatherTool.TemplatesHaveOneField | agent.py:53-58 | Each of the three filler templates is its literal text before and after a single `{location}` field, with no other brace |
| WeatherTool.Filler | agent.py:53-59 | The chosen filler line is that template's text with the sanitised location in place of `{location}` |
| WeatherTool.GetWeather | agent.py:40-79 | A filler is said if and only if the chat context is empty or its last message is not the assistant's. When said, it comes first and is the chosen template around the sanitised location. The last effect is the fetch of `https://wttr.in/<location>?format=%C+%t`. Status 200, and only 200, gives `The weather in <location> is <body>.`; any other status gives a failure with no weather text |
| WeatherTool.CleanLocationUrl | agent.py:67 | For a location of letters, digits and spaces, the URL is the host prefix, the location, then the fixed query. No `?` or `#` comes before the query, and no `/` comes after the host |
| WeatherTool.FetchUrlConfinesLocation | agent.py:40-70 | Whatever location the model passes, the requested URL keeps the fixed query `?format=%C+%t`, and the location cannot add a path segment, a query or a fragment |
| WeatherTool.GetWeatherDependsOnlyOnWords | agent.py:40-79 | Two locations with the same words, such as "New-York" and " New York!", give identical calls: same filler, same request, same outcome |
| WeatherTool.GetWeatherOfSanitized | agent.py:40-79 | Calling the tool with an already sanitised location gives the same call as calling it with the raw one |
| Session.SttModelFor | agent.py:110-113 | The model is `nova-2-phonecall` exactly when the participant kind is SIP, and `nova-2-general` exactly when it is not |

## Left out

- The LiveKit pipeline itself is not modelled: `VoicePipelineAgent`, turn detection, barge-in, speech handles, and the endpointing delays 0.5 and 5.0. It is an external library, so `agent.say` appears only as a `Say` effect.
- The effect of `add_to_chat_ctx=True` on the chat context is not modelled. The library appends the filler when the speech completes, which is library behaviour.
- Metrics collection and the usage summary logged at shutdown are not modelled. They are calls into `metrics.UsageCollector`.
- Networking through `aiohttp` is abstracted. The request is a `Fetch` effect carrying the URL exactly as the f-string builds it, and the answer is a `(status, body)` input.
- Transport errors and exceptions raised while fetching are not modelled. Nor is the client library's percent-encoding of spaces in the URL.
- The failure value is opaque. On a status other than 200 the code raises a plain string, which in Python 3 raises a `TypeError` rather than the intended message.
- `random.choice` is replaced by a filler index below 3 that the caller supplies.
- WeatherTool.FormatLocation: models only `{location}` replacement fields and copies every other character. `str.format` treats `}` specially: `}}` becomes `}` and a lone `}` raises `ValueError`. Escaped braces (the model turns `{{location}}` into `{` + value + `}`, where Python gives `{location}`), other field names and format specifications are not modelled either. None of the three templates contains a brace outside its field, so `WeatherTool.FormatOneField` assumes the text around the field has neither `{` nor `}`. Its own contract states only the no-`{` case; field replacement is proved by `WeatherTool.FormatOneField` for a single field with brace-free text around it.
- Chat roles are the four values `system`, `user`, `assistant` and `tool`. Apart from the role and the text, the fields of a message are not modelled, because the tool reads only the role of the last message.
- Other tools and wiring are not modelled:
  - `get_time` reads the wall clock;
  - `prewarm` loads a voice-activity model;
  - logging, `.env` loading, the room connection, waiting for the participant, and `cli.run_app`;
  - the system prompt, the greeting line, and the LLM/TTS choices, which are constants passed to the library.

=== FILE: sanitize.dfy ===
/**
  The clean-up the weather tool applies to the location argument before it
  is spoken or put into a URL: `re.sub(r"[^a-zA-Z0-9]+", " ", location).strip()`.

  `Substitute` models the regular-expression substitution and `Strip` models
  Python's `str.strip()`; `Sanitize` is their composition. `Words` and `Join`
  give an independent description of the result: the alphanumeric runs of
  the input, separated by single spaces.
 */
module Sanitize {

  /** The character class `[a-zA-Z0-9]`: ASCII letters and digits only. */
  predicate IsAlnum(c: char) {
    ('a' <= c <= 'z') || ('A' <= c <= 'Z') || ('0' <= c <= '9')
  }

  /** The characters for which Python's `str.isspace()` holds; `str.strip()`
      with no argument removes exactly these from both ends. */
  predicate IsWhitespace(c: char) {
    || c == ' '
    || ('\t' <= c <= '\r')
    || ('\U{1C}' <= c <= '\U{1F}')
    || c == '\U{85}'
    || c == '\U{A0}'
    || c == '\U{1680}'
    || ('\U{2000}' <= c <= '\U{200A}')
    || c == '\U{2028}'
    || c == '\U{2029}'
    || c == '\U{202F}'
    || c == '\U{205F}'
    || c == '\U{3000}'
  }

  predicate OnlyAlnumOrSpace(s: string) {
    forall i :: 0 <= i < |s| ==> IsAlnum(s[i]) || s[i] == ' '
  }

  predicate NoDoubleSpace(s: string) {
    forall i, j :: 0 <= i < |s| && 0 <= j < |s| && j == i + 1 ==> s[i] != ' ' || s[j] != ' '
  }

  predicate NoOuterSpace(s: string) {
    |s| == 0 || (s[0] != ' ' && s[|s| - 1] != ' ')
  }

  /** The shape of every sanitised location. */
  predicate Clean(s: string) {
    OnlyAlnumOrSpace(s) && NoDoubleSpace(s) && NoOuterSpace(s)
  }

  predicate AllWhitespace(s: string) {
    forall i :: 0 <= i < |s| ==> IsWhitespace(s[i])
  }

  /** `re.sub(r"[^a-zA-Z0-9]+", " ", s)`. Scanning left to right, a character
      outside the class becomes a space only when it starts a run, that is,
      when the character before it is in the class or there is none. */
  function Substitute(s: string): (r: string)
    ensures OnlyAlnumOrSpace(r)
    ensures NoDoubleSpace(r)
    ensures |r| == 0 <==> |s| == 0
    ensures |s| > 0 ==> (r[0] == ' ' <==> !IsAlnum(s[0]))
    ensures |s| > 0 ==> (r[|r| - 1] == ' ' <==> !IsAlnum(s[|s| - 1]))
    decreases |s|
  {
    if |s| == 0 then []
    else
      var init := s[..|s| - 1];
      var c := s[|s| - 1];
      assert |init| > 0 ==> init[0] == s[0];
      if IsAlnum(c) then Substitute(init) + [c]
      else if |init| > 0 && !IsAlnum(init[|init| - 1]) then Substitute(init)
      else Substitute(init) + [' ']
  }

  /** The first index at or after `i` whose character is not whitespace, or
      `|s|` when there is none. */
  function SkipWhitespace(s: string, i: nat): (k: nat)
    requires i <= |s|
    ensures i <= k <= |s|
    ensures forall m :: i <= m < k ==> IsWhitespace(s[m])
    ensures k == |s| || !IsWhitespace(s[k])
    decreases |s| - i
  {
    if i < |s| && IsWhitespace(s[i]) then SkipWhitespace(s, i + 1) else i
  }

  /** Scanning back from `j`, no further than `lo`: the index just after the
      last character that is not whitespace, or `lo` when there is none. */
  function SkipWhitespaceBack(s: string, lo: nat, j: nat): (k: nat)
    requires lo <= j <= |s|
    ensures lo <= k <= j
    ensures forall m :: k <= m < j ==> IsWhitespace(s[m])
    ensures k == lo || !IsWhitespace(s[k - 1])
    decreases j
  {
    if lo < j && IsWhitespace(s[j - 1]) then SkipWhitespaceBack(s, lo, j - 1) else j
  }

  /** Python's `str.strip()`: skip whitespace from the front, then from the
      back, and keep what lies between. */
  function Strip(s: string): (r: string)
    ensures |r| == 0 || (!IsWhitespace(r[0]) && !IsWhitespace(r[|r| - 1]))
  {
    var lo := SkipWhitespace(s, 0);
    s[lo..SkipWhitespaceBack(s, lo, |s|)]
  }

  /** Whatever `str.strip()` cuts off on either side is whitespace: the input
      is the result with whitespace padding around it. */
  lemma StripSplits(s: string) returns (before: string, after: string)
    ensures s == before + Strip(s) + after
    ensures AllWhitespace(before) && AllWhitespace(after)
  {
    var lo := SkipWhitespace(s, 0);
    var hi := SkipWhitespaceBack(s, lo, |s|);
    before, after := s[..lo], s[hi..];
    SliceAllWhitespace(s, 0, lo);
    SliceAllWhitespace(s, hi, |s|);
    assert s[0..lo] == before && s[hi..|s|] == after;
    assert s == before + s[lo..hi] + after;
  }

  /** The location as the weather tool uses it: only ASCII letters, digits
      and single inner spaces are left. */
  function Sanitize(s: string): (r: string)
    ensures OnlyAlnumOrSpace(r)
    ensures NoDoubleSpace(r)
    ensures NoOuterSpace(r)
  {
    StripKeepsShape(Substitute(s));
    Strip(Substitute(s))
  }

  /** A piece cut out of a string made of letters, digits and single spaces
      is made of them too. */
  lemma StripKeepsShape(s: string)
    requires OnlyAlnumOrSpace(s) && NoDoubleSpace(s)
    ensures Clean(Strip(s))
  {
    var lo := SkipWhitespace(s, 0);
    var hi := SkipWhitespaceBack(s, lo, |s|);
    SliceOnlyAlnumOrSpace(s, lo, hi);
    SliceNoDoubleSpace(s, lo, hi);
  }

  lemma SliceOnlyAlnumOrSpace(s: string, lo: nat, hi: nat)
    requires lo <= hi <= |s| && OnlyAlnumOrSpace(s)
    ensures OnlyAlnumOrSpace(s[lo..hi])
  {
    var r := s[lo..hi];
    forall i | 0 <= i < |r| ensures IsAlnum(r[i]) || r[i] == ' ' {
      assert r[i] == s[lo + i];
    }
  }

  lemma SliceNoDoubleSpace(s: string, lo: nat, hi: nat)
    requires lo <= hi <= |s| && NoDoubleSpace(s)
    ensures NoDoubleSpace(s[lo..hi])
  {
    var r := s[lo..hi];
    forall i, j | 0 <= i < |r| && 0 <= j < |r| && j == i + 1 ensures r[i] != ' ' || r[j] != ' ' {
      assert r[i] == s[lo + i] && r[j] == s[lo + j];
    }
  }

  // ---------------------------------------------------------------------
  // Letters and digits are kept, in order

  /** The ASCII letters and digits of `s`, in order. */
  function AlnumChars(s: string): string
    decreases |s|
  {
    if |s| == 0 then []
    else AlnumChars(s[..|s| - 1]) + (if IsAlnum(s[|s| - 1]) then [s[|s| - 1]] else [])
  }

  lemma {:induction false} AlnumCharsAppend(a: string, b: string)
    ensures AlnumChars(a + b) == AlnumChars(a) + AlnumChars(b)
    decreases |b|
  {
    if |b| == 0 {
      assert a + b == a;
    } else {
      var b' := b[..|b| - 1];
      assert (a + b)[..|a + b| - 1] == a + b';
      assert b[..|b| - 1] == b';
      AlnumCharsAppend(a, b');
    }
  }

  lemma {:induction false} AlnumCharsOfWhitespace(s: string)
    requires AllWhitespace(s)
    ensures AlnumChars(s) == []
    decreases |s|
  {
    if |s| > 0 {
      AlnumCharsOfWhitespace(s[..|s| - 1]);
    }
  }

  lemma {:induction false} SubstituteKeepsAlnum(s: string)
    ensures AlnumChars(Substitute(s)) == AlnumChars(s)
    decreases |s|
  {
    if |s| > 0 {
      var init := s[..|s| - 1];
      SubstituteKeepsAlnum(init);
      AlnumCharsAppend(Substitute(init), [s[|s| - 1]]);
      AlnumCharsAppend(Substitute(init), [' ']);
      assert [s[|s| - 1]][..0] == [];
      assert [' '][..0] == [];
    }
  }

  lemma StripKeepsAlnum(s: string)
    ensures AlnumChars(Strip(s)) == AlnumChars(s)
  {
    var before, after := StripSplits(s);
    AlnumCharsPadded(before, Strip(s), after);
  }

  lemma SliceAllWhitespace(s: string, lo: nat, hi: nat)
    requires lo <= hi <= |s|
    requires forall i :: lo <= i < hi ==> IsWhitespace(s[i])
    ensures AllWhitespace(s[lo..hi])
  {
    forall i | 0 <= i < hi - lo ensures IsWhitespace(s[lo..hi][i]) {
      assert s[lo..hi][i] == s[lo + i];
    }
  }

  lemma AlnumCharsPadded(a: string, r: string, b: string)
    requires AllWhitespace(a) && AllWhitespace(b)
    ensures AlnumChars(a + r + b) == AlnumChars(r)
  {
    AlnumCharsOfWhitespace(a);
    AlnumCharsOfWhitespace(b);
    AlnumCharsAppend(a + r, b);
    AlnumCharsAppend(a, r);
  }

  /** Sanitising keeps every ASCII letter and digit of the location, in the
      original order, and adds none. */
  lemma SanitizeKeepsAlnum(s: string)
    ensures AlnumChars(Sanitize(s)) == AlnumChars(s)
  {
    SubstituteKeepsAlnum(s);
    StripKeepsAlnum(Substitute(s));
  }

  // ---------------------------------------------------------------------
  // Words: the independent description of the result

  /** A maximal run of class characters. */
  predicate IsWord(w: string) {
    |w| > 0 && forall i :: 0 <= i < |w| ==> IsAlnum(w[i])
  }

  predicate AllWords(ws: seq<string>) {
    forall k :: 0 <= k < |ws| ==> IsWord(ws[k])
  }

  /** The maximal runs of ASCII letters and digits in `s`, in order. */
  function Words(s: string): (ws: seq<string>)
    ensures |s| > 0 && IsAlnum(s[|s| - 1]) ==> |ws| > 0
    decreases |s|
  {
    if |s| == 0 then []
    else
      var init := s[..|s| - 1];
      var c := s[|s| - 1];
      var ws := Words(init);
      if !IsAlnum(c) then ws
      else if |init| > 0 && IsAlnum(init[|init| - 1]) then ws[..|ws| - 1] + [ws[|ws| - 1] + [c]]
      else ws + [[c]]
  }

  lemma {:induction false} WordsAreWords(s: string)
    ensures AllWords(Words(s))
    decreases |s|
  {
    if |s| > 0 {
      var init := s[..|s| - 1];
      var c := s[|s| - 1];
      var ws := Words(init);
      WordsAreWords(init);
      if IsAlnum(c) {
        if |init| > 0 && IsAlnum(init[|init| - 1]) {
          var last := ws[|ws| - 1] + [c];
          assert IsWord(last) by {
            assert IsWord(ws[|ws| - 1]);
            forall i | 0 <= i < |last| ensures IsAlnum(last[i]) {
              if i < |last| - 1 {
                assert last[i] == ws[|ws| - 1][i];
              }
            }
          }
          var ws' := ws[..|ws| - 1] + [last];
          forall k | 0 <= k < |ws'| ensures IsWord(ws'[k]) {
            if k < |ws| - 1 {
              assert ws'[k] == ws[k];
            }
          }
        } else {
          var ws' := ws + [[c]];
          forall k | 0 <= k < |ws'| ensures IsWord(ws'[k]) {
            if k < |ws| {
              assert ws'[k] == ws[k];
            }
          }
        }
      }
    }
  }

  /** The words separated by single spaces. */
  function Join(ws: seq<string>): string
    decreases |ws|
  {
    if |ws| == 0 then []
    else if |ws| == 1 then ws[0]
    else Join(ws[..|ws| - 1]) + [' '] + ws[|ws| - 1]
  }

  /** Joining words always gives a clean string that starts and ends with a
      letter or digit, and is empty only when there are no words. */
  lemma {:induction false} JoinClean(ws: seq<string>)
    requires AllWords(ws)
    ensures Clean(Join(ws))
    ensures |Join(ws)| == 0 <==> |ws| == 0
    ensures |Join(ws)| > 0 ==> IsAlnum(Join(ws)[0]) && IsAlnum(Join(ws)[|Join(ws)| - 1])
    decreases |ws|
  {
    if |ws| > 1 {
      var init := ws[..|ws| - 1];
      var w := ws[|ws| - 1];
      assert AllWords(init) by {
        forall k | 0 <= k < |init| ensures IsWord(init[k]) {
          assert init[k] == ws[k];
        }
      }
      assert IsWord(w);
      JoinClean(init);
      var j := Join(init);
      var r := j + [' '] + w;
      assert Join(ws) == r;
      forall i | 0 <= i < |r| ensures IsAlnum(r[i]) || r[i] == ' ' {
        if i < |j| {
          assert r[i] == j[i];
        } else if i > |j| {
          assert r[i] == w[i - |j| - 1];
        }
      }
      forall i, i' | 0 <= i && i' == i + 1 && i' < |r| ensures r[i] != ' ' || r[i'] != ' ' {
        if i' < |j| {
          assert r[i] == j[i] && r[i'] == j[i'];
        } else if i' == |j| {
          assert r[i] == j[|j| - 1];
        } else {
          assert r[i'] == w[i' - |j| - 1];
        }
      }
      assert r[|r| - 1] == w[|w| - 1];
    }
  }

  lemma {:induction false} WordsAppendWord(t: string, w: string)
    requires IsWord(w)
    requires |t| == 0 || !IsAlnum(t[|t| - 1])
    ensures Words(t + w) == Words(t) + [w]
    decreases |w|
  {
    if |w| == 1 {
      WordsAppendLetter(t, w);
    } else {
      WordPrefix(w);
      WordsAppendWord(t, w[..|w| - 1]);
      WordsAppendWordStep(t, w);
    }
  }

  lemma WordsAppendLetter(t: string, w: string)
    requires IsWord(w) && |w| == 1
    requires |t| == 0 || !IsAlnum(t[|t| - 1])
    ensures Words(t + w) == Words(t) + [w]
  {
    assert w == [w[0]];
    WordsStart(t, w[0]);
  }

  lemma WordPrefix(w: string)
    requires IsWord(w) && |w| > 1
    ensures IsWord(w[..|w| - 1])
  {
    var w' := w[..|w| - 1];
    forall i | 0 <= i < |w'| ensures IsAlnum(w'[i]) {
      assert w'[i] == w[i];
    }
  }

  lemma WordsAppendWordStep(t: string, w: string)
    requires IsWord(w) && |w| > 1 && IsWord(w[..|w| - 1])
    requires Words(t + w[..|w| - 1]) == Words(t) + [w[..|w| - 1]]
    ensures Words(t + w) == Words(t) + [w]
  {
    InitLast(w);
    ConcatAssoc(t, w[..|w| - 1], [w[|w| - 1]]);
    WordsGrowWord(t, w[..|w| - 1], w[|w| - 1]);
  }

  lemma InitLast<T>(s: seq<T>)
    requires |s| > 0
    ensures s == s[..|s| - 1] + [s[|s| - 1]]
  {
  }

  lemma WordsGrowWord(t: string, w: string, c: char)
    requires IsAlnum(c) && IsWord(w)
    requires Words(t + w) == Words(t) + [w]
    ensures Words(t + w + [c]) == Words(t) + [w + [c]]
  {
    assert (t + w)[|t + w| - 1] == w[|w| - 1];
    WordsExtend(t + w, c);
    ReplaceLast(Words(t), w, c);
  }

  lemma ReplaceLast(ws: seq<string>, w: string, c: char)
    ensures (ws + [w])[..|ws|] + [(ws + [w])[|ws|] + [c]] == ws + [w + [c]]
  {
    assert (ws + [w])[..|ws|] == ws;
  }

  /** A letter or digit after a gap, or at the start, begins a new word. */
  lemma WordsStart(u: string, c: char)
    requires IsAlnum(c)
    requires |u| == 0 || !IsAlnum(u[|u| - 1])
    ensures Words(u + [c]) == Words(u) + [[c]]
  {
    var s := u + [c];
    assert s[..|s| - 1] == u && s[|s| - 1] == c;
  }

  /** A letter or digit after another one extends the last word. */
  lemma WordsExtend(u: string, c: char)
    requires IsAlnum(c)
    requires |u| > 0 && IsAlnum(u[|u| - 1])
    ensures |Words(u)| > 0
    ensures Words(u + [c]) == Words(u)[..|Words(u)| - 1] + [Words(u)[|Words(u)| - 1] + [c]]
  {
    var s := u + [c];
    assert s[..|s| - 1] == u && s[|s| - 1] == c;
  }

  lemma WordsAppendSpace(t: string)
    ensures Words(t + [' ']) == Words(t)
  {
    assert (t + [' '])[..|t|] == t;
  }

  /** Splitting joined words gives the words back. */
  lemma {:induction false} WordsOfJoin(ws: seq<string>)
    requires AllWords(ws)
    ensures Words(Join(ws)) == ws
    decreases |ws|
  {
    if |ws| == 1 {
      WordsOfOneWord(ws);
    } else if |ws| > 1 {
      AllWordsPrefix(ws);
      WordsOfJoin(ws[..|ws| - 1]);
      WordsOfJoinStep(ws);
    }
  }

  lemma WordsOfOneWord(ws: seq<string>)
    requires |ws| == 1 && IsWord(ws[0])
    ensures Words(Join(ws)) == ws
  {
    WordsAppendWord([], ws[0]);
    assert [] + ws[0] == ws[0];
    assert [] + [ws[0]] == ws;
  }

  lemma AllWordsPrefix(ws: seq<string>)
    requires |ws| > 0 && AllWords(ws)
    ensures AllWords(ws[..|ws| - 1]) && IsWord(ws[|ws| - 1])
  {
    var init := ws[..|ws| - 1];
    forall k | 0 <= k < |init| ensures IsWord(init[k]) {
      assert init[k] == ws[k];
    }
  }

  lemma WordsOfJoinStep(ws: seq<string>)
    requires |ws| > 1 && IsWord(ws[|ws| - 1])
    requires Words(Join(ws[..|ws| - 1])) == ws[..|ws| - 1]
    ensures Words(Join(ws)) == ws
  {
    var j := Join(ws[..|ws| - 1]);
    assert Join(ws) == j + [' '] + ws[|ws| - 1];
    WordsAppendSpace(j);
    assert (j + [' '])[|j|] == ' ';
    WordsAppendWord(j + [' '], ws[|ws| - 1]);
    InitLast(ws);
  }

  /** The space `re.sub` leaves at the front of `s`, if any. */
  function LeadingGap(s: string): string {
    if |s| > 0 && !IsAlnum(s[0]) then [' '] else []
  }

  /** The space `re.sub` leaves at the end of `s`, if any; when `s` has no
      words at all its single space counts as the leading one. */
  function TrailingGap(s: string): string {
    if |s| > 0 && !IsAlnum(s[|s| - 1]) && |Words(s)| > 0 then [' '] else []
  }

  lemma JoinExtendLast(ws: seq<string>, c: char)
    requires |ws| > 0
    ensures Join(ws[..|ws| - 1] + [ws[|ws| - 1] + [c]]) == Join(ws) + [c]
  {
    var ws' := ws[..|ws| - 1] + [ws[|ws| - 1] + [c]];
    assert |ws'| == |ws|;
    if |ws| > 1 {
      assert ws'[..|ws'| - 1] == ws[..|ws| - 1];
    }
  }

  lemma JoinAppend(ws: seq<string>, w: string)
    ensures |ws| == 0 ==> Join(ws + [w]) == w
    ensures |ws| > 0 ==> Join(ws + [w]) == Join(ws) + [' '] + w
  {
    assert (ws + [w])[..|ws|] == ws;
  }

  /** `re.sub` turns `s` into its words joined by single spaces, with one
      extra space at either end where `s` starts or ends outside the class. */
  predicate ShapeHolds(s: string) {
    Substitute(s) == LeadingGap(s) + Join(Words(s)) + TrailingGap(s)
  }

  lemma {:induction false} SubstituteShape(s: string)
    ensures ShapeHolds(s)
    decreases |s|
  {
    if |s| > 0 {
      var init := s[..|s| - 1];
      SubstituteShape(init);
      ShapeStep(init, s[|s| - 1]);
      assert init + [s[|s| - 1]] == s;
    }
  }

  lemma ShapeStep(init: string, c: char)
    requires ShapeHolds(init)
    ensures ShapeHolds(init + [c])
  {
    var s := init + [c];
    assert s[..|s| - 1] == init && s[|s| - 1] == c;
    assert |init| > 0 ==> s[0] == init[0];
    if IsAlnum(c) {
      if |init| > 0 && IsAlnum(init[|init| - 1]) {
        ShapeExtendWord(init, c);
      } else {
        ShapeStartWord(init, c);
      }
    } else {
      if |init| > 0 && !IsAlnum(init[|init| - 1]) {
        ShapeContinueGap(init, c);
      } else {
        ShapeOpenGap(init, c);
      }
    }
  }

  lemma ShapeExtendWord(init: string, c: char)
    requires ShapeHolds(init)
    requires IsAlnum(c) && |init| > 0 && IsAlnum(init[|init| - 1])
    ensures ShapeHolds(init + [c])
  {
    var s := init + [c];
    var ws := Words(init);
    assert s[..|s| - 1] == init && s[|s| - 1] == c && s[0] == init[0];
    assert Words(s) == ws[..|ws| - 1] + [ws[|ws| - 1] + [c]];
    assert TrailingGap(init) == [] && TrailingGap(s) == [];
    JoinExtendLast(ws, c);
    assert Substitute(s) == Substitute(init) + [c];
  }

  lemma ShapeStartWord(init: string, c: char)
    requires ShapeHolds(init)
    requires IsAlnum(c) && (|init| == 0 || !IsAlnum(init[|init| - 1]))
    ensures ShapeHolds(init + [c])
  {
    var s := init + [c];
    assert s[..|s| - 1] == init && s[|s| - 1] == c;
    assert |init| > 0 ==> s[0] == init[0];
    assert Words(s) == Words(init) + [[c]];
    assert TrailingGap(s) == [];
    assert LeadingGap(s) == LeadingGap(init);
    SubstituteAfterGap(init, c);
  }

  lemma ShapeContinueGap(init: string, c: char)
    requires ShapeHolds(init)
    requires !IsAlnum(c) && |init| > 0 && !IsAlnum(init[|init| - 1])
    ensures ShapeHolds(init + [c])
  {
    var s := init + [c];
    assert s[..|s| - 1] == init && s[|s| - 1] == c && s[0] == init[0];
    assert Substitute(s) == Substitute(init);
    assert Words(s) == Words(init);
    assert TrailingGap(s) == TrailingGap(init);
    assert LeadingGap(s) == LeadingGap(init);
  }

  lemma ShapeOpenGap(init: string, c: char)
    requires ShapeHolds(init)
    requires !IsAlnum(c) && (|init| == 0 || IsAlnum(init[|init| - 1]))
    ensures ShapeHolds(init + [c])
  {
    var s := init + [c];
    assert s[..|s| - 1] == init && s[|s| - 1] == c;
    assert Substitute(s) == Substitute(init) + [' '];
    assert Words(s) == Words(init);
    if |init| == 0 {
      assert LeadingGap(s) == [' '];
      assert TrailingGap(s) == [];
    } else {
      assert s[0] == init[0];
      assert LeadingGap(s) == LeadingGap(init);
      assert TrailingGap(init) == [];
      assert TrailingGap(s) == [' '];
    }
  }

  lemma ConcatAssoc(a: string, b: string, c: string)
    ensures a + b + c == a + (b + c)
  {
  }

  /** The letter or digit after a run of other characters follows one space. */
  lemma SubstituteAfterGap(init: string, c: char)
    requires IsAlnum(c)
    requires |init| == 0 || !IsAlnum(init[|init| - 1])
    requires ShapeHolds(init)
    ensures Substitute(init + [c]) == LeadingGap(init) + Join(Words(init) + [[c]])
  {
    var s := init + [c];
    assert s[..|s| - 1] == init && s[|s| - 1] == c;
    assert Substitute(s) == Substitute(init) + [c];
    JoinAppend(Words(init), [c]);
    if |Words(init)| == 0 {
      FirstWordAfterGap(init, c);
    } else {
      NextWordAfterGap(init, c);
    }
  }

  lemma FirstWordAfterGap(init: string, c: char)
    requires |Words(init)| == 0
    requires ShapeHolds(init)
    ensures Substitute(init) + [c] == LeadingGap(init) + [c]
  {
    assert TrailingGap(init) == [];
    assert Join(Words(init)) == [];
  }

  lemma NextWordAfterGap(init: string, c: char)
    requires |init| > 0 && !IsAlnum(init[|init| - 1])
    requires |Words(init)| > 0
    requires ShapeHolds(init)
    ensures Substitute(init) + [c] == LeadingGap(init) + (Join(Words(init)) + [' '] + [c])
  {
    assert TrailingGap(init) == [' '];
    ConcatAssoc(LeadingGap(init), Join(Words(init)) + [' '], [c]);
  }

  /** Stripping removes exactly the whitespace padding around a piece that
      neither starts nor ends with whitespace. */
  lemma StripPadded(a: string, j: string, b: string)
    requires AllWhitespace(a) && AllWhitespace(b)
    requires |j| == 0 || (!IsWhitespace(j[0]) && !IsWhitespace(j[|j| - 1]))
    ensures Strip(a + j + b) == j
  {
    var s := a + j + b;
    PaddingIsWhitespace(a, j, b);
    if |j| == 0 {
      StripAllWhitespace(s);
    } else {
      assert s[|a|] == j[0] && s[|a| + |j| - 1] == j[|j| - 1];
      SkipWhitespaceStops(s, 0, |a|);
      SkipWhitespaceBackStops(s, |a|, |s|, |a| + |j|);
      assert s[|a|..|a| + |j|] == j;
    }
  }

  lemma PaddingIsWhitespace(a: string, j: string, b: string)
    requires AllWhitespace(a) && AllWhitespace(b)
    ensures var s := a + j + b;
      && (forall m :: 0 <= m < |a| ==> IsWhitespace(s[m]))
      && (forall m :: |a| + |j| <= m < |s| ==> IsWhitespace(s[m]))
  {
    var s := a + j + b;
    forall m | 0 <= m < |a| ensures IsWhitespace(s[m]) {
      assert s[m] == a[m];
    }
    forall m | |a| + |j| <= m < |s| ensures IsWhitespace(s[m]) {
      assert s[m] == b[m - |a| - |j|];
    }
  }

  lemma StripAllWhitespace(s: string)
    requires forall m :: 0 <= m < |s| ==> IsWhitespace(s[m])
    ensures Strip(s) == []
  {
    SkipWhitespaceStops(s, 0, |s|);
  }

  /** The front scan stops at the first character that is not whitespace. */
  lemma SkipWhitespaceStops(s: string, i: nat, k: nat)
    requires i <= k <= |s|
    requires forall m :: i <= m < k ==> IsWhitespace(s[m])
    requires k == |s| || !IsWhitespace(s[k])
    ensures SkipWhitespace(s, i) == k
  {
  }

  /** The back scan stops just after the last character that is not
      whitespace. */
  lemma SkipWhitespaceBackStops(s: string, lo: nat, j: nat, k: nat)
    requires lo <= k <= j <= |s|
    requires forall m :: k <= m < j ==> IsWhitespace(s[m])
    requires k == lo || !IsWhitespace(s[k - 1])
    ensures SkipWhitespaceBack(s, lo, j) == k
  {
  }

  /** The independent description: the sanitised location is the input's
      words joined by single spaces. */
  lemma SanitizeIsJoinedWords(s: string)
    ensures Sanitize(s) == Join(Words(s))
  {
    SubstituteShape(s);
    WordsAreWords(s);
    JoinClean(Words(s));
    StripPadded(LeadingGap(s), Join(Words(s)), TrailingGap(s));
  }

  /** Sanitising keeps the word structure of the input: which letters and
      digits were separated, and which were adjacent. */
  lemma SanitizeKeepsWords(s: string)
    ensures Words(Sanitize(s)) == Words(s)
  {
    SanitizeIsJoinedWords(s);
    WordsAreWords(s);
    WordsOfJoin(Words(s));
  }

  lemma {:induction false} SubstituteFixes(t: string)
    requires OnlyAlnumOrSpace(t) && NoDoubleSpace(t)
    ensures Substitute(t) == t
    decreases |t|
  {
    if |t| > 0 {
      var init := t[..|t| - 1];
      assert OnlyAlnumOrSpace(init) by {
        forall i | 0 <= i < |init| ensures IsAlnum(init[i]) || init[i] == ' ' {
          assert init[i] == t[i];
        }
      }
      assert NoDoubleSpace(init) by {
        forall i, j | 0 <= i && j == i + 1 && j < |init| ensures init[i] != ' ' || init[j] != ' ' {
          assert init[i] == t[i] && init[j] == t[j];
        }
      }
      SubstituteFixes(init);
      if |init| > 0 {
        assert init[|init| - 1] == t[|t| - 2];
      }
      assert init + [t[|t| - 1]] == t;
    }
  }

  /** A location is left unchanged by sanitising exactly when it is clean. */
  lemma SanitizeFixesClean(t: string)
    ensures Sanitize(t) == t <==> Clean(t)
  {
    if Clean(t) {
      SubstituteFixes(t);
      StripPadded([], t, []);
      assert [] + t + [] == t;
    }
  }

  /** Sanitising twice gives the same location as sanitising once. */
  lemma SanitizeIdempotent(s: string)
    ensures Sanitize(Sanitize(s)) == Sanitize(s)
  {
    SanitizeFixesClean(Sanitize(s));
  }

  /** The sanitised location is the only clean string with the same words as
      the input. */
  lemma SanitizeUnique(s: string, t: string)
    requires Clean(t) && Words(t) == Words(s)
    ensures t == Sanitize(s)
  {
    SanitizeFixesClean(t);
    SanitizeIsJoinedWords(t);
    SanitizeIsJoinedWords(s);
  }
}

=== FILE: session.dfy ===
/**
  The session set-up decision the agent makes itself: which speech
  recognition model to ask for, from the kind of participant that joined.
 */
module Session {

  /** The kinds of room participant the media server reports. */
  datatype ParticipantKind = Standard | Ingress | Egress | Sip | Agent

  /** Speech recognition model for ordinary audio. */
  const GeneralModel: string := "nova-2-general"

  /** Speech recognition model tuned for telephone audio. */
  const PhoneCallModel: string := "nova-2-phonecall"

  /** The telephony model for a participant dialled in over SIP, the general
      one for anyone else. */
  function SttModelFor(kind: ParticipantKind): (model: string)
    ensures model == "nova-2-phonecall" <==> kind == Sip
    ensures model == "nova-2-general" <==> kind != Sip
  {
    if kind == Sip then PhoneCallModel else GeneralModel
  }
}

=== FILE: weather_tool.dfy ===
/**
  The `get_weather` tool the voice agent offers to its language model.

  One call sanitises the location, speaks a filler line unless the assistant
  has just spoken, asks the weather service for the location, and turns the
  answer into a sentence for the model. The call is a pure function here: the
  chat context, the filler the random pick chose and the HTTP answer are its
  inputs, and what it does to the outside world is a trace of effects.
 */
module WeatherTool {
  import Sanitize

  /** The roles a chat message can have. */
  datatype Role = System | User | Assistant | Tool

  datatype ChatMessage = ChatMessage(role: Role, text: string)

  /** What the weather service answered: the status code and the body text. */
  datatype HttpResponse = HttpResponse(status: int, body: string)

  /** What the tool does to the outside world, in order: speak a line, or
      request a URL. */
  datatype Effect = Say(text: string) | Fetch(url: string)

  /** The tool's result: the sentence handed back to the model, or a failure
      whose content is not modelled. */
  datatype Outcome = Report(text: string) | Failure

  datatype Invocation = Invocation(effects: seq<Effect>, outcome: Outcome)

  /** The replacement field the filler templates use. */
  const LocationField: string := "{location}"

  /** The three filler lines, as written, with their replacement field. */
  const FillerTemplates: seq<string> := [
    "Let me check the weather in {location} for you.",
    "Let me see what the weather is like in {location} right now.",
    "The current weather in {location} is "
  ]

  /** The same three lines as the text before and after the location. */
  const FillerParts: seq<(string, string)> := [
    ("Let me check the weather in ", " for you."),
    ("Let me see what the weather is like in ", " right now."),
    ("The current weather in ", " is ")
  ]

  const WeatherUrlPrefix: string := "https://wttr.in/"
  const WeatherUrlQuery: string := "?format=%C+%t"

  /** `template.format(location=value)` for a template whose only braces
      are `{location}` fields: each field is replaced by `value` and all
      other text is copied. */
  function FormatLocation(template: string, value: string): (r: string)
    ensures '{' !in template ==> r == template
    decreases |template|
  {
    if |template| == 0 then []
    else if LocationField <= template then
      assert template[0] == LocationField[0] == '{';
      value + FormatLocation(template[|LocationField|..], value)
    else
      assert forall i :: 0 <= i < |template| - 1 ==> template[1..][i] == template[i + 1];
      [template[0]] + FormatLocation(template[1..], value)
  }

  /** A template with one field and no other brace formats to the text
      around the field with the value in between. */
  lemma {:induction false} FormatOneField(before: string, after: string, value: string)
    requires NoBrace(before) && NoBrace(after)
    ensures FormatLocation(before + LocationField + after, value) == before + value + after
    decreases |before|
  {
    if |before| == 0 {
      FieldFirst(after, value);
      assert before + LocationField + after == LocationField + after;
    } else {
      TextFirst(before, after, value);
      FormatOneField(before[1..], after, value);
      ConsFirst(before, value, after);
    }
  }

  lemma ConsFirst(s: string, v: string, t: string)
    requires |s| > 0
    ensures [s[0]] + (s[1..] + v + t) == s + v + t
  {
    assert [s[0]] + s[1..] == s;
  }

  lemma FieldFirst(after: string, value: string)
    requires NoBrace(after)
    ensures FormatLocation(LocationField + after, value) == value + after
  {
    var t := LocationField + after;
    assert LocationField <= t;
    assert t[|LocationField|..] == after;
  }

  lemma TextFirst(before: string, after: string, value: string)
    requires |before| > 0 && NoBrace(before)
    ensures NoBrace(before[1..])
    ensures FormatLocation(before + LocationField + after, value)
         == [before[0]] + FormatLocation(before[1..] + LocationField + after, value)
  {
    var t := before + LocationField + after;
    assert t[0] == before[0] && t[0] != '{';
    assert !(LocationField <= t);
    assert t[1..] == before[1..] + LocationField + after;
  }

  /** Each filler template is its two parts around the `{location}` field. */
  lemma TemplatesHaveOneField(choice: nat)
    requires choice < |FillerTemplates|
    ensures FillerTemplates[choice] == FillerParts[choice].0 + LocationField + FillerParts[choice].1
    ensures NoBrace(FillerParts[choice].0) && NoBrace(FillerParts[choice].1)
  {
    PartsHaveNoBrace(choice);
    if choice == 0 {
      FirstTemplate();
    } else if choice == 1 {
      SecondTemplate();
    } else {
      ThirdTemplate();
    }
  }

  /** The text around the field of each template has no brace. */
  lemma PartsHaveNoBrace(choice: nat)
    requires choice < |FillerParts|
    ensures NoBrace(FillerParts[choice].0) && NoBrace(FillerParts[choice].1)
  {
    if choice == 0 {
      NoBraceBefore0();
      NoBraceAfter0();
    } else if choice == 1 {
      NoBraceBefore1();
      NoBraceAfter1();
    } else {
      NoBraceBefore2();
      NoBraceAfter2();
    }
  }

  /** `s` holds neither `{` nor `}`, so `str.format` copies it unchanged. */
  predicate NoBrace(s: string) {
    '{' !in s && '}' !in s
  }

  lemma NoBraceOfChars(s: string)
    requires forall i :: 0 <= i < |s| ==> s[i] != '{' && s[i] != '}'
    ensures NoBrace(s)
  {
  }

  // One lemma per literal: each proof evaluates one string, and proving all
  // six in one lemma costs the solver several times as much.
  lemma NoBraceBefore0() ensures NoBrace(FillerParts[0].0) { NoBraceOfChars(FillerParts[0].0); }
  lemma NoBraceAfter0() ensures NoBrace(FillerParts[0].1) { NoBraceOfChars(FillerParts[0].1); }
  lemma NoBraceBefore1() ensures NoBrace(FillerParts[1].0) { NoBraceOfChars(FillerParts[1].0); }
  lemma NoBraceAfter1() ensures NoBrace(FillerParts[1].1) { NoBraceOfChars(FillerParts[1].1); }
  lemma NoBraceBefore2() ensures NoBrace(FillerParts[2].0) { NoBraceOfChars(FillerParts[2].0); }
  lemma NoBraceAfter2() ensures NoBrace(FillerParts[2].1) { NoBraceOfChars(FillerParts[2].1); }

  lemma FirstTemplate()
    ensures FillerTemplates[0] == FillerParts[0].0 + LocationField + FillerParts[0].1
  {
  }

  lemma SecondTemplate()
    ensures FillerTemplates[1] == FillerParts[1].0 + LocationField + FillerParts[1].1
  {
  }

  lemma ThirdTemplate()
    ensures FillerTemplates[2] == FillerParts[2].0 + LocationField + FillerParts[2].1
  {
  }

  /** The filler line the tool speaks for the template `choice`. */
  function Filler(choice: nat, location: string): (r: string)
    requires choice < |FillerTemplates|
    ensures r == FillerParts[choice].0 + location + FillerParts[choice].1
  {
    TemplatesHaveOneField(choice);
    FormatOneField(FillerParts[choice].0, FillerParts[choice].1, location);
    FormatLocation(FillerTemplates[choice], location)
  }

  /** A filler is spoken unless the last message of the chat context is
      the assistant's. */
  predicate ShouldSayFiller(context: seq<ChatMessage>) {
    |context| == 0 || context[|context| - 1].role != Assistant
  }

  function WeatherUrl(location: string): string {
    WeatherUrlPrefix + location + WeatherUrlQuery
  }

  function WeatherReport(location: string, body: string): string {
    "The weather in " + location + " is " + body + "."
  }

  /** One call of the tool. `fillerChoice` is the template the random pick
      chose; `response` is what the weather service answered to the request
      the call makes. */
  function GetWeather(rawLocation: string, context: seq<ChatMessage>, fillerChoice: nat,
                      response: HttpResponse): (call: Invocation)
    requires fillerChoice < |FillerTemplates|
    ensures var location := Sanitize.Sanitize(rawLocation);
      && 1 <= |call.effects| <= 2
      && call.effects[|call.effects| - 1] == Fetch("https://wttr.in/" + location + "?format=%C+%t")
      && (|call.effects| == 2 ==>
            call.effects[0] == Say(FillerParts[fillerChoice].0 + location + FillerParts[fillerChoice].1))
    ensures |call.effects| == 2 <==> |context| == 0 || context[|context| - 1].role != Assistant
    ensures call.outcome.Report? <==> response.status == 200
    ensures call.outcome.Report? ==>
      call.outcome.text == "The weather in " + Sanitize.Sanitize(rawLocation) + " is " + response.body + "."
  {
    RunWithLocation(Sanitize.Sanitize(rawLocation), context, fillerChoice, response)
  }

  /** The rest of a call once the location is sanitised. */
  function RunWithLocation(location: string, context: seq<ChatMessage>, fillerChoice: nat,
                           response: HttpResponse): Invocation
    requires fillerChoice < |FillerTemplates|
  {
    var filler := if ShouldSayFiller(context) then [Say(Filler(fillerChoice, location))] else [];
    var effects := filler + [Fetch(WeatherUrl(location))];
    if response.status == 200 then Invocation(effects, Report(WeatherReport(location, response.body)))
    else Invocation(effects, Failure)
  }

  /** The location cannot reach outside the path of the request: the URL
      ends with the fixed query, no `?` or `#` comes before it, and no `/`
      comes after the host prefix. */
  predicate PathConfined(url: string) {
    && |WeatherUrlPrefix| + |WeatherUrlQuery| <= |url|
    && url[|url| - |WeatherUrlQuery|..] == WeatherUrlQuery
    && '?' !in url[..|url| - |WeatherUrlQuery|]
    && '#' !in url[..|url| - |WeatherUrlQuery|]
    && '/' !in url[|WeatherUrlPrefix|..]
  }

  /** Whatever location the model passes, the request keeps its fixed query
      and the location cannot add a path segment, a query or a fragment. */
  lemma FetchUrlConfinesLocation(rawLocation: string, context: seq<ChatMessage>, fillerChoice: nat,
                                 response: HttpResponse)
    requires fillerChoice < |FillerTemplates|
    ensures var effects := GetWeather(rawLocation, context, fillerChoice, response).effects;
      |effects| > 0 && effects[|effects| - 1].Fetch? && PathConfined(effects[|effects| - 1].url)
  {
    CleanLocationUrl(Sanitize.Sanitize(rawLocation));
  }

  /** A location of letters, digits and spaces stays inside the path of the
      request. */
  lemma CleanLocationUrl(location: string)
    requires Sanitize.OnlyAlnumOrSpace(location)
    ensures PathConfined(WeatherUrl(location))
  {
  }

  /** Locations with the same words give the same call: the same filler,
      the same request and the same report. */
  lemma GetWeatherDependsOnlyOnWords(a: string, b: string, context: seq<ChatMessage>, fillerChoice: nat,
                                     response: HttpResponse)
    requires fillerChoice < |FillerTemplates|
    requires Sanitize.Words(a) == Sanitize.Words(b)
    ensures GetWeather(a, context, fillerChoice, response) == GetWeather(b, context, fillerChoice, response)
  {
    Sanitize.SanitizeIsJoinedWords(a);
    Sanitize.SanitizeIsJoinedWords(b);
    assert Sanitize.Sanitize(a) == Sanitize.Sanitize(b);
  }

  /** Passing the tool an already sanitised location changes nothing. */
  lemma GetWeatherOfSanitized(rawLocation: string, context: seq<ChatMessage>, fillerChoice: nat,
                              response: HttpResponse)
    requires fillerChoice < |FillerTemplates|
    ensures GetWeather(Sanitize.Sanitize(rawLocation), context, fillerChoice, response)
         == GetWeather(rawLocation, context, fillerChoice, response)
  {
    Sanitize.SanitizeIdempotent(rawLocation);
  }
}
